=== FILE: README.md ===
# SoulSupporters: screening, crisis triage and AI chat, in Dafny

SoulSupporters is a student mental-health web app. This project models its
three core pieces and proves properties of them:

- **The PHQ-9 screening page** (`screening.dfy`, module `Screening`). The page
  asks nine questions, one at a time, on a four-point scale ("0" to "3"). It
  stores the answers in a map keyed by question index. It sums them when the
  last question is confirmed and maps the total onto four severity bands
  (0-4 minimal, 5-9 mild, 10-14 moderate, 15-27 severe). It shows a self-harm
  notice for totals of 10 and above. The page state is a class
  (`ScreeningPage`) whose methods are the page's event handlers. The total is
  computed by a loop (`TotalScore`) proved against a recursive definition
  (`AnswerSum`).
- **The `ai-support` edge function** (`ai_support.dfy`, module
  `SupportFunction`). The function classifies each message by keywords:
  high for a crisis term, medium for a distress word, low otherwise. It
  builds the system prompt (English or Hindi, plus an optional screening
  summary) and the message list for the text-generation service, keeping
  the last six history entries. It answers with the reply, the priority and,
  for high priority only, three emergency contacts. Its error paths are
  modelled: a missing message, a missing key, a service error status.
- **The AI chat page** (`ai_chat.dfy`, module `Chat`). The page keeps an
  append-only message list that starts with a greeting, the input box, the
  emergency contacts, and a "share with counsellor" offer that a medium or
  high reply raises. Sharing writes a session record whose risk level is high
  exactly when some message is high. The page state is a class
  (`ChatSession`).
- `common.dfy` (module `Common`) holds the shared `Option` type, the badge
  variants of the UI kit and `TakeLast`, the model of `slice(-n)`.

JavaScript behaviour is written out where it matters:

- Truthiness of strings: `Given` is present and non-empty.
- `toLowerCase`, on ASCII letters.
- `includes`, as a substring search proved equal to a ghost `Occurs`.
- `slice(-n)` for positive `n`.
- `trim`, over the ECMAScript white-space and line-terminator characters;
  `trim() === ""` is proved equal to `IsBlank`.

Things outside the program are parameters:

- The configured API key is an `Option<string>`.
- The text-generation service's answer is a `Completion`: a text, or an
  error status.
- The outcome of the page's call to the function is an `InvokeResult`: a
  reply, or no reply.
- Whether the database insert succeeded is a `bool`.

## Model

| member | source | states |
|---|---|---|
| `Common.TakeLast` | supabase/functions/ai-support/index.ts:80 | `slice(-n)` keeps `n` elements, or all of a shorter list |
| `Common.TakeLastIsSuffix` | supabase/functions/ai-support/index.ts:80 | what `slice(-n)` keeps is a suffix: the dropped prefix followed by it gives back the list, order unchanged |
| `Screening.QuestionCountIsLength` | src/pages/Screening.tsx:19-29 | the questionnaire has nine items |
| `Screening.ParseAnswer` | src/pages/Screening.tsx:31-36 | `parseInt` of an option value is that option's position on the 0-3 scale |
| `Screening.AnswerSumBounds` | src/pages/Screening.tsx:63 | each question adds 0 to 3, so the first `n` questions add between 0 and `3n` |
| `Screening.TotalScore` | src/pages/Screening.tsx:63 | the loop's total is the sum of all stored answers and lies in 0..27 |
| `Screening.GetScoreInterpretation` | src/pages/Screening.tsx:68-118 | success colour exactly for scores up to 4, destructive exactly from 10; always three recommendations |
| `Screening.BandsPartitionScores` | src/pages/Screening.tsx:68-118 | the four bands cover exactly the scores 0..27, and no score lies in two bands |
| `Screening.InterpretationMatchesBand` | src/pages/Screening.tsx:68-118 | the returned level and colour are those of the band containing the score |
| `Screening.ConcernMonotone` | src/pages/Screening.tsx:68-118 | a higher score never gets a band of lower concern |
| `Screening.SafetyNoticeIffDestructive` | src/pages/Screening.tsx:178-193 | the notice is shown exactly for the destructive-coloured results, and for a score in 0..27 exactly when it lies in the moderate or severe band of the published table |
| `Screening.SelfHarmItemAloneShowsNoNotice` | src/pages/Screening.tsx:178 | "Nearly every day" on the self-harm item alone totals 3: minimal, and no notice |
| `Screening.AnswerSumUniform` | src/pages/Screening.tsx:63 | `n` equal answers sum to `n` times their value |
| `Screening.ResultBadge` | src/pages/Screening.tsx:145 | the result badge is secondary exactly for the success band, and never the warning variant |
| `Screening.ScreeningPage.constructor` | src/pages/Screening.tsx:39-42 | the page starts on question 0 with no answers, not completed, score 0 |
| `Screening.ScreeningPage.HandleAnswerChange` | src/pages/Screening.tsx:44-46 | the choice is stored under the current question; cursor, flag and score are unchanged |
| `Screening.ScreeningPage.GoToNext` | src/pages/Screening.tsx:48-54 | before the last question the cursor moves on; on the last one the page completes with the full sum |
| `Screening.ScreeningPage.GoToPrevious` | src/pages/Screening.tsx:56-60 | steps back one question exactly when the Previous button is enabled (not on the first question); nothing else changes |
| `Screening.ScreeningPage.CompleteScreening` | src/pages/Screening.tsx:62-66 | stores the sum of a complete answer set and marks the page completed |
| `Screening.ScreeningPage.Result` | src/pages/Screening.tsx:121 | an interpretation exists exactly when the page is completed, and it is the interpretation of the stored score |
| `Screening.RecordNext` | src/pages/Screening.tsx:45 | storing answer `k` on top of answers 0..k-1 adds exactly that answer to the sum |
| `Screening.AnswerSumIgnoresLaterKeys` | src/pages/Screening.tsx:63 | answers at or after position `n` do not change the sum of the first `n` |
| `Screening.UniformResponseSum` | src/pages/Screening.tsx:63 | equal responses sum to their count times their value |
| `Screening.TakeScreening` | src/pages/Screening.tsx:44-66 | answering all nine questions through the handlers ends with score = sum of responses, in 0..27, notice iff score >= 10 |
| `Screening.AllNearlyEveryDayIsSevere` | src/pages/Screening.tsx:105-117 | nine "Nearly every day" answers give 27: the severe interpretation, with the notice |
| `Screening.AllNotAtAllIsMinimal` | src/pages/Screening.tsx:69-80 | nine "Not at all" answers give 0: the minimal interpretation, without the notice |
| `SupportFunction.ToLower` | supabase/functions/ai-support/index.ts:16 | lower-casing keeps the length and maps each character on its own |
| `SupportFunction.Includes` | supabase/functions/ai-support/index.ts:18 | `includes` is true exactly when the term occurs as a substring |
| `SupportFunction.SomeIncluded` | supabase/functions/ai-support/index.ts:18 | `some(includes)` is true exactly when one of the terms occurs |
| `SupportFunction.DetectCrisisLevel` | supabase/functions/ai-support/index.ts:15-28 | high iff a crisis keyword occurs in the lower-cased message; medium iff none does but a distress word does; low iff neither |
| `SupportFunction.LowerOfUpper` | supabase/functions/ai-support/index.ts:16 | with ASCII case mapping, lower-casing after upper-casing gives the plain lower-cased text |
| `SupportFunction.DetectIgnoresCase` | supabase/functions/ai-support/index.ts:16 | with ASCII case mapping, a message and its upper-cased form get the same priority |
| `SupportFunction.SuicidalInCapitalsIsHigh` | supabase/functions/ai-support/index.ts:15-19 | "I feel SUICIDAL today" is high priority |
| `SupportFunction.EndMyLifeIsHigh` | supabase/functions/ai-support/index.ts:9-19 | "I want to end my life" is high priority |
| `SupportFunction.CrisisKeywordsNeedCrisisLetters` | supabase/functions/ai-support/index.ts:9-13 | every crisis keyword contains one of the letters c, f, h, n |
| `SupportFunction.NoCrisisKeywordWithoutCrisisLetters` | supabase/functions/ai-support/index.ts:9-18 | a text with none of those letters contains no crisis keyword |
| `SupportFunction.StressedAboutExamsIsMedium` | supabase/functions/ai-support/index.ts:15-25 | "I'm a bit stressed about exams" is medium priority |
| `SupportFunction.LanguageName` | supabase/functions/ai-support/index.ts:58 | the prompt names Hindi exactly for language "hi", English for every other code |
| `SupportFunction.Given` | supabase/functions/ai-support/index.ts:38-45 | JavaScript truthiness of the message, the key and the summary: absent and `""` are falsy, every other string is truthy |
| `SupportFunction.AppendSummaryKeepsPrompt` | supabase/functions/ai-support/index.ts:73-75 | the base prompt is kept as a prefix; the summary paragraph follows exactly when a non-empty summary is sent |
| `SupportFunction.PromptAssembly` | supabase/functions/ai-support/index.ts:36-75 | the system prompt (`SystemPrompt`, this assembly over the verbatim text) names Hindi exactly for `"hi"` and English otherwise, with `"en"` as the default when no language is sent; the summary paragraph follows exactly when the summary is truthy |
| `SupportFunction.OutgoingMessages` | supabase/functions/ai-support/index.ts:78-82 | system prompt first, then the last min(n, 6) history entries in order (none without history), then the user's message |
| `SupportFunction.DecimalString` | supabase/functions/ai-support/index.ts:103 | a status code prints as a non-empty string of digits that spells the status number |
| `SupportFunction.ServiceReply` | supabase/functions/ai-support/index.ts:100-119 | a service error gives the error body naming the status; a completion gives its text, the message's priority, and the three contacts exactly when that priority is high |
| `SupportFunction.Handle` | supabase/functions/ai-support/index.ts:35-133 | a missing message or key gives the matching error body and calls nothing; otherwise the prompt and message list are sent and the reply is `ServiceReply`; a success body only comes from a completion |
| `Chat.ToHistory` | src/pages/AIChat.tsx:74-77 | one history entry per message |
| `Chat.ToHistoryMirrors` | src/pages/AIChat.tsx:74-77 | entries keep each message's text and order; user messages become user entries, bot messages assistant entries, never system |
| `Chat.TrimEmptyIffBlank` | src/pages/AIChat.tsx:57 | `inputValue.trim() === ""` holds exactly when every character is one of the ECMAScript white-space or line-terminator characters (tab, VT, FF, space, NBSP, BOM, the space separators, LF, CR, U+2028, U+2029) |
| `Chat.BotMessage` | src/pages/AIChat.tsx:84-107 | the bot message is the reply with its priority, or the connection-trouble text at medium priority when no reply came |
| `Chat.SomeHigh` | src/pages/AIChat.tsx:126 | true exactly when some message has high priority |
| `Chat.SessionRiskLevel` | src/pages/AIChat.tsx:126 | the shared risk level is never low, and is high exactly when some message is high |
| `Chat.RiskLevelSticky` | src/pages/AIChat.tsx:126 | appending messages never lowers a high session risk level |
| `Chat.GetPriorityColor` | src/pages/AIChat.tsx:147-153 | destructive iff high, warning iff medium, secondary for low or no priority |
| `Chat.PriorityColorMonotone` | src/pages/AIChat.tsx:147-153 | a more urgent priority never gets a less alarming badge |
| `Chat.PriorityBadge` | src/pages/AIChat.tsx:194-200 | a badge appears exactly for medium and high; its variant is `getPriorityColor(priority)`, so never secondary; it reads "Urgent" exactly for high |
| `Chat.AppendExchange` | src/pages/AIChat.tsx:59-68 | appending a non-blank user message and a bot reply keeps the greeting first and keeps any earlier concerning reply |
| `Chat.ChatSession.constructor` | src/pages/AIChat.tsx:38-49 | the chat opens with the greeting alone, an empty input, no contacts and no share offer |
| `Chat.ChatSession.SetInput` | src/pages/AIChat.tsx:233-265 | typing or a quick-prompt button sets the input and nothing else |
| `Chat.ChatSession.HandleSendMessage` | src/pages/AIChat.tsx:56-119 | blank input: nothing changes. Otherwise: input cleared; request carries the text and the ten preceding messages; user and bot messages appended; contacts replaced only when sent; share offer raised by medium or high |
| `Chat.ChatSession.ShareWithCounsellor` | src/pages/AIChat.tsx:121-145 | the record holds the whole conversation, risk high iff some message is high, intervention requested; only a successful insert withdraws the offer |
| `Chat.CrisisMessageEscalates` | src/pages/AIChat.tsx:56-145 | "I want to end my life" in a fresh chat ends with the share offer up, the three contacts shown, and a high-risk record |

## Left out

- CORS headers and the `OPTIONS` preflight reply (index.ts lines 4-7 and 31-33) are transport details.
- Request parsing and JSON serialisation are not modelled. The body arrives already decoded as `RequestBody`. Values of the wrong JSON type are not modelled.
- Some function inputs are parameters: the `Deno.env` key lookup, and the outcome of the `fetch` to the service as a `Completion` (a text or an error status).
- Service outcomes that `Completion` cannot represent are not modelled:
  - A success reply without `choices[0].message.content` gives a success body without `response` (index.ts:107-110).
  - An empty `choices` list or a rejected `fetch` gives a 500 body whose `error` is not "OpenAI API error: n" (index.ts:86, 107, 124-131).
- The model name, token limit and timestamps are not modelled, and neither are console logging, toasts or the scroll-into-view effect.
- `SupportFunction.ToLower` maps only `A`-`Z`. JavaScript's Unicode case mapping is not modelled (for example the Kelvin sign, which lower-cases to `k`).
- `SupportFunction.LowerOfUpper` is proved for ASCII case mapping only. It fails for JavaScript's `toUpperCase`: `'ß'` upper-cases to `"SS"`, which lower-cases to `"ss"`.
- `SupportFunction.DetectIgnoresCase` is proved for ASCII case mapping only. It fails for JavaScript's `toUpperCase`: `"ſuicidal"` (with U+017F) is low priority, but its upper-cased form `"SUICIDAL"` is high (index.ts:16-18). The classifier lower-cases but never folds such letters, so these spellings of a crisis term are missed.
- `slice(-0)`: the page and the function always pass positive counts, so `TakeLast` requires `n > 0`.
- The page's `await` is not split into two events. A second send typed with Enter while a reply is pending is not modelled; only the Send button is disabled while typing. `HandleSendMessage` runs one send to completion.
- The "Retake Screening" reload (Screening.tsx:170-171), the progress bar and the question text display on the screening page are rendering only.
- `Screening.ScreeningPage.HandleAnswerChange`: requires an option value, because the radio group can only report one of the four.
- `Screening.ScreeningPage.GoToNext`: requires an answer for the current question, because that is when the Next/Complete button is enabled.
- `Chat.ChatSession.ShareWithCounsellor` does not require the share offer to be up, although the button is only rendered then.
- `SupportFunction.Handle`: the prompt text is modelled verbatim. The only properties proved about it are the language name and the summary suffix.
- `Chat.CrisisMessageEscalates` takes the function's reply from `ServiceReply`, which `Handle` returns once the message and key are given. It does not call `Handle` itself.
- The chat page keeps no session escalation state: one medium or high reply raises the share offer (AIChat.tsx:97-99).
- A failed call appends a medium-priority bot message and leaves the share offer as it was (AIChat.tsx:101-109).
- The chat page never sends `screeningSummary` (AIChat.tsx:72-79).

=== FILE: ai_chat.dfy ===
/** The AI chat page: an append-only message list, the input box, the
    counsellor-share offer, the emergency contacts shown under the chat, and
    the record written when the user shares the conversation. */
module Chat {
  import opened Common
  import opened SupportFunction

  /** Who wrote a message on the page (`'user' | 'bot'`). */
  datatype Author = FromUser | FromBot

  /** A chat message; only bot messages carry a priority. */
  datatype Message = Message(content: string, author: Author, priority: Option<Priority>)

  /** The message the page opens with. */
  const Greeting: Message := Message(
    "Hello! I'm your AI mental health companion. I'm here to listen and provide support. How are you feeling today?",
    FromBot, Some(Low))

  /** The bot message shown when the function cannot be reached. */
  const ConnectionTrouble: string :=
    "I'm having trouble connecting right now. Please consider reaching out to a counselor if you need immediate support."

  /** How many earlier messages the page sends along as history. */
  const HistoryLimit: nat := 10

  /** The characters `String.prototype.trim` removes: the JavaScript
      white-space and line-terminator characters. */
  predicate IsWhitespace(c: char) {
    var n := c as int;
    n == 0x09 || n == 0x0A || n == 0x0B || n == 0x0C || n == 0x0D || n == 0x20
    || n == 0xA0 || n == 0x1680 || (0x2000 <= n <= 0x200A) || n == 0x2028 || n == 0x2029
    || n == 0x202F || n == 0x205F || n == 0x3000 || n == 0xFEFF
  }

  /** Every character of `s` is one that `trim` removes. */
  predicate IsBlank(s: string) {
    forall i :: 0 <= i < |s| ==> IsWhitespace(s[i])
  }

  /** `String.prototype.trimStart`: drops leading white space. */
  function TrimStart(s: string): string {
    if s != [] && IsWhitespace(s[0]) then TrimStart(s[1..]) else s
  }

  /** `String.prototype.trimEnd`: drops trailing white space. */
  function TrimEnd(s: string): string {
    if s != [] && IsWhitespace(s[|s| - 1]) then TrimEnd(s[..|s| - 1]) else s
  }

  /** `String.prototype.trim`. */
  function Trim(s: string): string {
    TrimEnd(TrimStart(s))
  }

  /** Trimming the end never removes a first character that is not white
      space. */
  lemma {:induction false} TrimEndKeepsFirst(s: string)
    requires s != [] && !IsWhitespace(s[0])
    ensures TrimEnd(s) != []
  {
    if IsWhitespace(s[|s| - 1]) {
      assert |s| >= 2;
      TrimEndKeepsFirst(s[..|s| - 1]);
    }
  }

  /** `s.trim() === ""` holds exactly when every character of `s` is white
      space or a line terminator. */
  lemma {:induction false} TrimEmptyIffBlank(s: string)
    ensures Trim(s) == "" <==> IsBlank(s)
  {
    if s != [] {
      if IsWhitespace(s[0]) {
        TrimEmptyIffBlank(s[1..]);
        assert IsBlank(s) <==> IsBlank(s[1..]) by {
          if IsBlank(s[1..]) {
            forall i | 0 <= i < |s| ensures IsWhitespace(s[i]) {
              if i > 0 { assert s[i] == s[1..][i - 1]; }
            }
          }
          if IsBlank(s) {
            forall i | 0 <= i < |s[1..]| ensures IsWhitespace(s[1..][i]) {
              assert s[1..][i] == s[i + 1];
            }
          }
        }
      } else {
        TrimEndKeepsFirst(s);
      }
    }
  }

  /** The service role of a page message: user messages speak as the user,
      everything else as the assistant. */
  function HistoryEntry(m: Message): ChatEntry {
    ChatEntry(if m.author == FromUser then User else Assistant, m.content)
  }

  /** `ms.map(m => ({ role, content }))`. */
  function ToHistory(ms: seq<Message>): (h: seq<ChatEntry>)
    ensures |h| == |ms|
  {
    if ms == [] then [] else ToHistory(ms[..|ms| - 1]) + [HistoryEntry(ms[|ms| - 1])]
  }

  /** The history is the messages one for one, in order, with the same
      text; user messages become user entries, bot messages assistant
      entries, and none is a system entry. */
  lemma {:induction false} ToHistoryMirrors(ms: seq<Message>)
    ensures forall i :: 0 <= i < |ms| ==>
              && ToHistory(ms)[i].content == ms[i].content
              && ToHistory(ms)[i].role != System
              && (ToHistory(ms)[i].role == User <==> ms[i].author == FromUser)
  {
    if ms != [] {
      ToHistoryMirrors(ms[..|ms| - 1]);
    }
  }

  /** The body the page posts to the function. */
  datatype InvokeBody = InvokeBody(message: string, history: seq<ChatEntry>, language: string)

  /** How the call to the function ended: its reply, or no reply at all. A
      reply with an error body comes with status 500, which the client
      library reports as an error as well. */
  datatype InvokeResult = Invoked(reply: Reply) | Unreachable

  /** The call produced a success body. */
  predicate Answered(result: InvokeResult) {
    result.Invoked? && result.reply.Answer?
  }

  /** The bot message appended for a call result: the reply with its
      priority, or the connection-trouble text with priority medium. */
  function BotMessage(result: InvokeResult): (m: Message)
    ensures m.author == FromBot && m.priority.Some?
    ensures !Answered(result) ==> m.priority == Some(Medium)
    ensures Answered(result) ==> m.content == result.reply.response
    ensures Answered(result) ==> m.priority == Some(result.reply.priority)
    ensures !Answered(result) ==> m.content == ConnectionTrouble
  {
    if Answered(result) then Message(result.reply.response, FromBot, Some(result.reply.priority))
    else Message(ConnectionTrouble, FromBot, Some(Medium))
  }

  /** `messages.some(m => m.priority === 'high')`. */
  function SomeHigh(ms: seq<Message>): (b: bool)
    ensures b <==> exists i :: 0 <= i < |ms| && ms[i].priority == Some(High)
  {
    if ms == [] then false
    else ms[|ms| - 1].priority == Some(High) || SomeHigh(ms[..|ms| - 1])
  }

  /** The `risk_level` written when the conversation is shared. */
  function SessionRiskLevel(ms: seq<Message>): (r: Priority)
    ensures r != Low
    ensures r == High <==> exists i :: 0 <= i < |ms| && ms[i].priority == Some(High)
  {
    if SomeHigh(ms) then High else Medium
  }

  /** Appending messages never lowers the session risk level. */
  lemma RiskLevelSticky(ms: seq<Message>, more: seq<Message>)
    requires SessionRiskLevel(ms) == High
    ensures SessionRiskLevel(ms + more) == High
  {
    var i :| 0 <= i < |ms| && ms[i].priority == Some(High);
    assert (ms + more)[i] == ms[i];
  }

  /** The row inserted into `chat_sessions`. */
  datatype SessionRecord = SessionRecord(
    userId: string,
    messages: seq<Message>,
    riskLevel: Priority,
    requiresIntervention: bool)

  /** `getPriorityColor`: the badge variant for a message priority. */
  function GetPriorityColor(p: Option<Priority>): (v: BadgeVariant)
    ensures v == Destructive <==> p == Some(High)
    ensures v == Warning <==> p == Some(Medium)
    ensures v == Secondary <==> (p == None || p == Some(Low))
  {
    match p
    case Some(High) => Destructive
    case Some(Medium) => Warning
    case _ => Secondary
  }

  /** The order of urgency among priorities and among badge variants. */
  function PriorityRank(p: Priority): nat {
    match p
    case Low => 0
    case Medium => 1
    case High => 2
  }

  function VariantRank(v: BadgeVariant): nat {
    match v
    case Secondary => 0
    case Warning => 1
    case Destructive => 2
  }

  /** A more urgent priority never gets a less alarming badge. */
  lemma PriorityColorMonotone(p: Priority, q: Priority)
    requires PriorityRank(p) <= PriorityRank(q)
    ensures VariantRank(GetPriorityColor(Some(p))) <= VariantRank(GetPriorityColor(Some(q)))
  {
  }

  /** The badge under a message: shown only for medium and high priority,
      reading "Urgent" for high and "Important" for medium. */
  function PriorityBadge(p: Option<Priority>): (b: Option<(BadgeVariant, string)>)
    ensures b.Some? <==> (p == Some(Medium) || p == Some(High))
    ensures b.Some? ==> b.value.0 != Secondary
    ensures b.Some? ==> b.value.0 == GetPriorityColor(p)
    ensures b.Some? ==> (b.value.1 == "Urgent" <==> p == Some(High))
  {
    if p.Some? && p.value != Low then
      Some((GetPriorityColor(p), if p.value == High then "Urgent" else "Important"))
    else None
  }

  /** The greeting stays first, and user messages are never blank and
      carry no priority. */
  ghost predicate WellFormedLog(ms: seq<Message>) {
    && |ms| >= 1 && ms[0] == Greeting
    && forall i :: 0 <= i < |ms| && ms[i].author == FromUser ==>
         ms[i].priority == None && !IsBlank(ms[i].content)
  }

  /** Some bot message in the log is medium or high priority. */
  ghost predicate HasConcerningReply(ms: seq<Message>) {
    exists i :: 0 <= i < |ms| && ms[i].author == FromBot
                && (ms[i].priority == Some(Medium) || ms[i].priority == Some(High))
  }

  /** Appending one exchange, a non-blank user message and a bot message,
      keeps the log well formed and keeps any concerning reply in it. */
  lemma AppendExchange(ms: seq<Message>, user: Message, bot: Message)
    requires WellFormedLog(ms)
    requires user.author == FromUser && user.priority == None && !IsBlank(user.content)
    requires bot.author == FromBot
    ensures WellFormedLog(ms + [user, bot])
    ensures HasConcerningReply(ms) ==> HasConcerningReply(ms + [user, bot])
    ensures bot.priority == Some(Medium) || bot.priority == Some(High) ==>
              HasConcerningReply(ms + [user, bot])
  {
    var ms' := ms + [user, bot];
    assert ms'[|ms|] == user && ms'[|ms| + 1] == bot;
    assert forall i :: 0 <= i < |ms| ==> ms'[i] == ms[i];
    if HasConcerningReply(ms) {
      var i :| 0 <= i < |ms| && ms[i].author == FromBot
               && (ms[i].priority == Some(Medium) || ms[i].priority == Some(High));
      assert ms'[i] == ms[i];
    }
  }

  /** The page's state cells. */
  class ChatSession {
    var messages: seq<Message>
    var inputValue: string
    var isTyping: bool
    var emergencyResources: seq<EmergencyResource>
    var canShareWithCounsellor: bool

    /** The greeting stays first; user messages are never blank and carry no
        priority; nothing is pending between events; and the share offer is
        only up while some bot message in the list is medium or high. */
    ghost predicate Valid()
      reads this
    {
      && WellFormedLog(messages)
      && !isTyping
      && (canShareWithCounsellor ==> HasConcerningReply(messages))
    }

    constructor ()
      ensures Valid()
      ensures messages == [Greeting] && inputValue == "" && !isTyping
      ensures emergencyResources == [] && !canShareWithCounsellor
    {
      messages := [Greeting];
      inputValue := "";
      isTyping := false;
      emergencyResources := [];
      canShareWithCounsellor := false;
    }

    /** The input box's `onChange` and the three quick-prompt buttons. */
    method SetInput(text: string)
      requires Valid()
      modifies this
      ensures Valid() && inputValue == text
      ensures messages == old(messages) && isTyping == old(isTyping)
      ensures emergencyResources == old(emergencyResources)
      ensures canShareWithCounsellor == old(canShareWithCounsellor)
    {
      inputValue := text;
    }

    /** `handleSendMessage`, with `result` standing for how the call to the
        function ended. A blank input changes nothing. Otherwise the user
        message is appended and the input cleared, the request carries the
        ten messages that preceded it, and one bot message follows; a reply
        replaces the emergency contacts only when it carries some, and
        raises the share offer when it is medium or high. */
    method HandleSendMessage(result: InvokeResult) returns (request: Option<InvokeBody>)
      requires Valid()
      modifies this
      ensures Valid()
      ensures IsBlank(old(inputValue)) ==>
                && request == None
                && messages == old(messages) && inputValue == old(inputValue)
                && emergencyResources == old(emergencyResources)
                && canShareWithCounsellor == old(canShareWithCounsellor)
      ensures !IsBlank(old(inputValue)) ==>
                && request == Some(InvokeBody(old(inputValue), ToHistory(TakeLast(old(messages), HistoryLimit)), "en"))
                && inputValue == ""
                && messages == old(messages) + [Message(old(inputValue), FromUser, None), BotMessage(result)]
                && emergencyResources == (if Answered(result) && result.reply.emergencyResources.Some?
                                          then result.reply.emergencyResources.value
                                          else old(emergencyResources))
                && canShareWithCounsellor == (old(canShareWithCounsellor) ||
                                              (Answered(result) && result.reply.priority != Low))
    {
      TrimEmptyIffBlank(inputValue);
      if Trim(inputValue) == "" {
        return None;
      }
      var userMessage := Message(inputValue, FromUser, None);
      var history := ToHistory(TakeLast(messages, HistoryLimit));
      messages := messages + [userMessage];
      var currentInput := inputValue;
      inputValue := "";
      isTyping := true;
      request := Some(InvokeBody(currentInput, history, "en"));

      var botMessage;
      if Answered(result) {
        var reply := result.reply;
        botMessage := Message(reply.response, FromBot, Some(reply.priority));
        messages := messages + [botMessage];
        if reply.emergencyResources.Some? {
          emergencyResources := reply.emergencyResources.value;
        }
        if reply.priority == High || reply.priority == Medium {
          canShareWithCounsellor := true;
        }
      } else {
        botMessage := Message(ConnectionTrouble, FromBot, Some(Medium));
        messages := messages + [botMessage];
      }
      isTyping := false;
      assert messages == old(messages) + [userMessage, botMessage];
      AppendExchange(old(messages), userMessage, botMessage);
    }

    /** `shareWithCounsellor`, with `inserted` standing for whether the
        database insert succeeded: the record holds the whole conversation,
        is high risk exactly when some message is high priority (medium
        otherwise) and always asks for intervention; only a successful
        insert withdraws the share offer. */
    method ShareWithCounsellor(inserted: bool) returns (record: SessionRecord)
      requires Valid()
      modifies this
      ensures Valid()
      ensures record == SessionRecord("temp-user-id", messages, SessionRiskLevel(messages), true)
      ensures messages == old(messages) && inputValue == old(inputValue)
      ensures emergencyResources == old(emergencyResources)
      ensures canShareWithCounsellor == (old(canShareWithCounsellor) && !inserted)
    {
      var risk := if SomeHigh(messages) then High else Medium;
      record := SessionRecord("temp-user-id", messages, risk, true);
      if inserted {
        canShareWithCounsellor := false;
      }
    }
  }

  /** End to end: "I want to end my life" typed into a fresh chat, answered
      by the function once the service has replied `aiText`, leaves the
      page offering to share with a counsellor and showing the three
      emergency contacts, and a shared record is high risk. */
  method CrisisMessageEscalates(text: string, aiText: string)
    returns (shareOffered: bool, contacts: seq<EmergencyResource>, risk: Priority)
    requires text == "I want to end my life"
    ensures shareOffered
    ensures contacts == EmergencyResources && |contacts| == 3
    ensures risk == High
  {
    var chat := new ChatSession();
    chat.SetInput(text);
    var reply := ServiceReply(text, Completed(aiText));
    EndMyLifeIsHigh(text);
    var request := chat.HandleSendMessage(Invoked(reply));
    assert request.Some? && request.value.message == text;
    shareOffered := chat.canShareWithCounsellor;
    contacts := chat.emergencyResources;
    assert chat.messages[2].priority == Some(High);
    var record := chat.ShareWithCounsellor(true);
    risk := record.riskLevel;
  }
}

=== FILE: ai_support.dfy ===
/** The `ai-support` edge function: the keyword-based crisis classifier,
    the assembly of the request sent to the text-generation service and the
    reply handed back to the chat page. */
module SupportFunction {
  import opened Common

  /** The urgency the classifier assigns to one message. */
  datatype Priority = Low | Medium | High

  /** Who speaks in a chat-completion message. */
  datatype Role = System | User | Assistant

  /** One entry of the message list sent to the text-generation service. */
  datatype ChatEntry = ChatEntry(role: Role, content: string)

  /** A crisis contact: a name and a number to call or a text to send. */
  datatype EmergencyResource = EmergencyResource(name: string, number: Option<string>, text: Option<string>)

  /** Terms that mark a message as a crisis. */
  const CrisisKeywords: seq<string> := [
    "suicide", "suicidal", "kill myself", "end my life", "self harm", "self-harm",
    "cutting", "hurt myself", "want to die", "better off dead", "hopeless",
    "panic attack", "can't breathe", "emergency", "crisis"
  ]

  /** Terms that mark a message as distressed. */
  const DistressWords: seq<string> := ["anxious", "depressed", "stressed", "worried"]

  /** The contacts attached to every high-priority reply. */
  const EmergencyResources: seq<EmergencyResource> := [
    EmergencyResource("National Suicide Prevention", Some("988"), None),
    EmergencyResource("Crisis Text Line", None, Some("HOME to 741741")),
    EmergencyResource("Emergency Services", Some("112"), None)
  ]

  /** Lower-cases one ASCII letter; every other character is kept. */
  function LowerChar(c: char): char {
    if 'A' <= c <= 'Z' then (c as int - 'A' as int + 'a' as int) as char else c
  }

  /** Upper-cases one ASCII letter; every other character is kept. */
  function UpperChar(c: char): char {
    if 'a' <= c <= 'z' then (c as int - 'a' as int + 'A' as int) as char else c
  }

  /** `toLowerCase`, on ASCII letters. */
  function ToLower(s: string): (r: string)
    ensures |r| == |s|
    ensures forall i :: 0 <= i < |s| ==> r[i] == LowerChar(s[i])
  {
    if s == [] then [] else [LowerChar(s[0])] + ToLower(s[1..])
  }

  /** `toUpperCase`, on ASCII letters. */
  function ToUpper(s: string): (r: string)
    ensures |r| == |s|
    ensures forall i :: 0 <= i < |s| ==> r[i] == UpperChar(s[i])
  {
    if s == [] then [] else [UpperChar(s[0])] + ToUpper(s[1..])
  }

  /** `term` sits in `text` at position `i`. */
  ghost predicate OccursAt(text: string, term: string, i: int) {
    0 <= i && i + |term| <= |text| && text[i..i + |term|] == term
  }

  /** `term` is a substring of `text`. */
  ghost predicate Occurs(text: string, term: string) {
    exists i :: OccursAt(text, term, i)
  }

  /** Dropping a first character that cannot start a match loses no match. */
  lemma OccursShift(text: string, term: string)
    requires 0 < |term| <= |text| && text[..|term|] != term
    ensures Occurs(text, term) <==> Occurs(text[1..], term)
  {
    if Occurs(text, term) {
      var i :| OccursAt(text, term, i);
      assert i != 0;
      assert text[1..][i - 1..i - 1 + |term|] == text[i..i + |term|];
      assert OccursAt(text[1..], term, i - 1);
    }
    if Occurs(text[1..], term) {
      var i :| OccursAt(text[1..], term, i);
      assert text[1..][i..i + |term|] == text[i + 1..i + 1 + |term|];
      assert OccursAt(text, term, i + 1);
    }
  }

  /** `text.includes(term)`. */
  function Includes(text: string, term: string): (b: bool)
    ensures b <==> Occurs(text, term)
    decreases |text|
  {
    if |term| > |text| then false
    else if text[..|term|] == term then assert OccursAt(text, term, 0); true
    else OccursShift(text, term); Includes(text[1..], term)
  }

  /** `terms.some(term => text.includes(term))`. */
  function SomeIncluded(text: string, terms: seq<string>): (b: bool)
    ensures b <==> exists k :: k in terms && Occurs(text, k)
  {
    if terms == [] then false
    else Includes(text, terms[0]) || SomeIncluded(text, terms[1..])
  }

  /** Some term of `terms` occurs in the lower-cased message. */
  ghost predicate Mentions(message: string, terms: seq<string>) {
    exists k :: k in terms && Occurs(ToLower(message), k)
  }

  /** `detectCrisisLevel`: high when the lower-cased message contains a
      crisis keyword, otherwise medium when it contains a distress word,
      otherwise low. */
  function DetectCrisisLevel(message: string): (p: Priority)
    ensures p == High <==> Mentions(message, CrisisKeywords)
    ensures p == Medium <==> !Mentions(message, CrisisKeywords) && Mentions(message, DistressWords)
    ensures p == Low <==> !Mentions(message, CrisisKeywords) && !Mentions(message, DistressWords)
  {
    var lower := ToLower(message);
    if SomeIncluded(lower, CrisisKeywords) then High
    else if Includes(lower, "anxious") || Includes(lower, "depressed")
         || Includes(lower, "stressed") || Includes(lower, "worried") then
      assert Mentions(message, DistressWords);
      Medium
    else
      Low
  }

  /** Lower-casing ignores an earlier upper-casing. */
  lemma {:induction false} LowerOfUpper(s: string)
    ensures ToLower(ToUpper(s)) == ToLower(s)
  {
    if s != [] {
      LowerOfUpper(s[1..]);
      assert ToUpper(s)[1..] == ToUpper(s[1..]);
    }
  }

  /** The classifier cannot tell a message from its upper-cased form. */
  lemma DetectIgnoresCase(message: string)
    ensures DetectCrisisLevel(ToUpper(message)) == DetectCrisisLevel(message)
  {
    LowerOfUpper(message);
  }

  /** A crisis keyword in capitals still makes the message high priority. */
  lemma SuicidalInCapitalsIsHigh(m: string)
    requires m == "I feel SUICIDAL today"
    ensures DetectCrisisLevel(m) == High
  {
    var low := ToLower(m);
    assert low[7] == 's';
    assert low[8] == 'u';
    assert low[9] == 'i';
    assert low[10] == 'c';
    assert low[11] == 'i';
    assert low[12] == 'd';
    assert low[13] == 'a';
    assert low[14] == 'l';
    assert low[7..15] == "suicidal";
    assert OccursAt(low, "suicidal", 7);
    assert "suicidal" in CrisisKeywords && Occurs(low, "suicidal");
    assert Mentions(m, CrisisKeywords);
  }

  /** A stated wish to die is high priority. */
  lemma EndMyLifeIsHigh(m: string)
    requires m == "I want to end my life"
    ensures DetectCrisisLevel(m) == High
  {
    var low := ToLower(m);
    assert low[10] == 'e';
    assert low[11] == 'n';
    assert low[12] == 'd';
    assert low[13] == ' ';
    assert low[14] == 'm';
    assert low[15] == 'y';
    assert low[16] == ' ';
    assert low[17] == 'l';
    assert low[18] == 'i';
    assert low[19] == 'f';
    assert low[20] == 'e';
    assert low[10..21] == "end my life";
    assert OccursAt(low, "end my life", 10);
    assert "end my life" in CrisisKeywords && Occurs(low, "end my life");
    assert Mentions(m, CrisisKeywords);
  }

  /** The letters that, between them, appear in every crisis keyword. */
  const CrisisLetters: string := "cfhn"

  /** Every crisis keyword holds one of `CrisisLetters`. */
  lemma CrisisKeywordsNeedCrisisLetters(k: string)
    requires k in CrisisKeywords
    ensures exists j :: 0 <= j < |k| && k[j] in CrisisLetters
  {
    if 'c' in k { var j :| 0 <= j < |k| && k[j] == 'c'; }
    else if 'f' in k { var j :| 0 <= j < |k| && k[j] == 'f'; }
    else if 'h' in k { var j :| 0 <= j < |k| && k[j] == 'h'; }
    else {
      assert k == "want to die";
      assert k[2] == 'n';
    }
  }

  /** A text without any of `CrisisLetters` holds no crisis keyword. */
  lemma NoCrisisKeywordWithoutCrisisLetters(text: string)
    requires forall i :: 0 <= i < |text| ==> text[i] !in CrisisLetters
    ensures forall k :: k in CrisisKeywords ==> !Occurs(text, k)
  {
    forall k | k in CrisisKeywords
      ensures !Occurs(text, k)
    {
      CrisisKeywordsNeedCrisisLetters(k);
      var j :| 0 <= j < |k| && k[j] in CrisisLetters;
    }
  }

  /** Lower-casing a text free of both cases of `CrisisLetters` leaves it
      free of them. */
  lemma LowerKeepsCrisisLettersOut(s: string)
    requires forall i :: 0 <= i < |s| ==> s[i] !in "cfhnCFHN"
    ensures forall i :: 0 <= i < |s| ==> ToLower(s)[i] !in CrisisLetters
  {
  }

  /** Exam stress is medium priority: "stressed" is a distress word, and
      the message has none of the letters every crisis keyword needs. */
  lemma StressedAboutExamsIsMedium(m: string)
    requires m == "I'm a bit stressed about exams"
    ensures DetectCrisisLevel(m) == Medium
  {
    var low := ToLower(m);
    assert low[10] == 's';
    assert low[11] == 't';
    assert low[12] == 'r';
    assert low[13] == 'e';
    assert low[14] == 's';
    assert low[15] == 's';
    assert low[16] == 'e';
    assert low[17] == 'd';
    assert low[10..18] == "stressed";
    assert OccursAt(low, "stressed", 10);
    assert "stressed" in DistressWords && Occurs(low, "stressed");
    assert Mentions(m, DistressWords);
    ExamMessageLacksCrisisLetters(m);
    LowerKeepsCrisisLettersOut(m);
    NoCrisisKeywordWithoutCrisisLetters(low);
  }

  /** The exam-stress message has no letter of `CrisisLetters` in either case. */
  lemma ExamMessageLacksCrisisLetters(m: string)
    requires m == "I'm a bit stressed about exams"
    ensures forall i :: 0 <= i < |m| ==> m[i] !in "cfhnCFHN"
  {
  }

  /** JavaScript truthiness of an optional string: `undefined` and `""`
      are falsy, every other string is truthy. */
  predicate Given(s: Option<string>): (b: bool)
    ensures s.None? ==> !b
    ensures s == Some("") ==> !b
    ensures s.Some? && |s.value| >= 1 ==> b
  {
    s.Some? && s.value != ""
  }

  /** The system prompt up to the name of the reply language. */
  const PromptHead: string :=
    "You are an empathetic AI mental health support assistant for students in India. \n" +
    "\n" +
    "CRITICAL GUIDELINES:\n" +
    "- You are NOT a replacement for professional medical care\n" +
    "- Always recommend seeking professional help for serious concerns\n" +
    "- Use culturally sensitive language appropriate for Indian students\n" +
    "- Be warm, non-judgmental, and supportive\n" +
    "- If user mentions suicide, self-harm, or crisis, immediately provide crisis resources\n" +
    "- Respond in "

  /** The system prompt after the name of the reply language. */
  const PromptTail: string :=
    " unless specifically asked otherwise\n" +
    "\n" +
    "CRISIS RESPONSE (if detecting suicidal ideation/self-harm):\n" +
    "\"I'm very concerned about what you're sharing. Your life has value and there is help available. Please reach out immediately:\n" +
    "- National Suicide Prevention: 988\n" +
    "- Crisis Text Line: Text HOME to 741741\n" +
    "- Or go to your nearest emergency room\n" +
    "Would you like me to help you find local mental health resources?\"\n" +
    "\n" +
    "YOUR ROLE:\n" +
    "- Provide emotional support and coping strategies\n" +
    "- Share evidence-based wellness techniques (breathing, mindfulness, etc.)\n" +
    "- Normalize seeking help and encourage professional support\n" +
    "- Be aware of academic stress, family expectations, and social pressures common among Indian students"

  /** The reply language named in the prompt: Hindi for "hi", English for
      every other code. */
  function LanguageName(language: string): (name: string)
    ensures name == "Hindi" <==> language == "hi"
    ensures name == "English" <==> language != "hi"
  {
    if language == "hi" then "Hindi" else "English"
  }

  /** The paragraph that carries the screening summary. */
  function SummarySection(summary: string): string {
    "\n\nUSER'S RECENT SCREENING RESULTS: " + summary
    + "\nTailor your response considering their current mental health status."
  }

  /** The optional summary step (`systemPrompt += ...` under a truthy
      summary). */
  function AppendSummary(prompt: string, summary: Option<string>): string {
    if Given(summary) then prompt + SummarySection(summary.value) else prompt
  }

  /** The summary step keeps the prompt as its prefix, and the summary
      paragraph follows it exactly when a non-empty summary is supplied. */
  lemma AppendSummaryKeepsPrompt(prompt: string, summary: Option<string>)
    ensures var p := AppendSummary(prompt, summary);
            && |prompt| <= |p| && p[..|prompt|] == prompt
            && (Given(summary) ==> p[|prompt|..] == SummarySection(summary.value))
            && (!Given(summary) ==> p == prompt)
  {
  }

  /** The prompt assembly of the handler over given fixed text: the text
      around the name of the requested language (English when none is
      given), then the optional summary. */
  function AssemblePrompt(head: string, tail: string, language: Option<string>, summary: Option<string>): string {
    AppendSummary(head + LanguageName(if language.Some? then language.value else "en") + tail, summary)
  }

  /** The system prompt for a request: the assembly over the fixed text. */
  function SystemPrompt(language: Option<string>, summary: Option<string>): string {
    AssemblePrompt(PromptHead, PromptTail, language, summary)
  }

  /** Whatever the fixed text, the assembled prompt names Hindi exactly when
      "hi" is requested and English otherwise, a missing language included;
      the summary paragraph follows exactly when a non-empty summary is
      sent. */
  lemma PromptAssembly(head: string, tail: string, language: Option<string>, summary: Option<string>)
    ensures var base := head + (if language == Some("hi") then "Hindi" else "English") + tail;
            var p := AssemblePrompt(head, tail, language, summary);
            && |base| <= |p| && p[..|base|] == base
            && (Given(summary) ==> p[|base|..] == SummarySection(summary.value))
            && (!Given(summary) ==> p == base)
  {
    var code := if language.Some? then language.value else "en";
    AppendSummaryKeepsPrompt(head + LanguageName(code) + tail, summary);
  }

  /** The number of history entries the service is shown. */
  const HistoryWindow: nat := 6

  /** The message list posted to the service: the system prompt, the last
      six history entries in their original order (none when the history
      is absent), then the user's message. */
  function OutgoingMessages(systemPrompt: string, history: Option<seq<ChatEntry>>, message: string)
    : (ms: seq<ChatEntry>)
    ensures var h := if history.Some? then history.value else [];
            |ms| == 2 + (if |h| <= HistoryWindow then |h| else HistoryWindow)
    ensures ms[0] == ChatEntry(System, systemPrompt)
    ensures var h := if history.Some? then history.value else [];
            ms[1..|ms| - 1] == h[|h| - (|ms| - 2)..]
    ensures ms[|ms| - 1] == ChatEntry(User, message)
  {
    var h := if history.Some? then history.value else [];
    var window := TakeLast(h, HistoryWindow);
    var ms := [ChatEntry(System, systemPrompt)] + window + [ChatEntry(User, message)];
    ms
  }

  /** The JSON body the chat page posts. */
  datatype RequestBody = RequestBody(
    message: Option<string>,
    history: Option<seq<ChatEntry>>,
    screeningSummary: Option<string>,
    language: Option<string>)

  /** What the text-generation service answered: a completion, or a
      non-success HTTP status. */
  datatype Completion = Completed(content: string) | ApiError(status: nat)

  /** The function's answer: a success body, or an error body sent with
      status 500. */
  datatype Reply =
    | Answer(response: string, priority: Priority, emergencyResources: Option<seq<EmergencyResource>>)
    | Failure(error: string, response: string)

  /** The fixed text of every error body. */
  const TechnicalDifficulties: string :=
    "I'm experiencing technical difficulties right now. Please consider reaching out to a counselor or crisis helpline if you need immediate support."

  /** The number a string of decimal digits spells, most significant first. */
  ghost function DigitsValue(s: string): int {
    if s == [] then 0 else 10 * DigitsValue(s[..|s| - 1]) + (s[|s| - 1] as int - '0' as int)
  }

  /** The decimal digits of `n`, as `${n}` prints a status code. */
  function DecimalString(n: nat): (r: string)
    ensures |r| >= 1
    ensures forall i :: 0 <= i < |r| ==> '0' <= r[i] <= '9'
    ensures DigitsValue(r) == n
  {
    if n < 10 then [('0' as int + n) as char]
    else DecimalString(n / 10) + [('0' as int + n % 10) as char]
  }

  /** What the handler answers once the service has been called for
      `message`: an error body naming the status when the service failed,
      otherwise the completion text with the message's priority, and the
      emergency contacts exactly when that priority is high. */
  function ServiceReply(message: string, completion: Completion): (r: Reply)
    ensures completion.ApiError? ==>
              r == Failure("OpenAI API error: " + DecimalString(completion.status), TechnicalDifficulties)
    ensures completion.Completed? ==>
              && r.Answer? && r.response == completion.content
              && r.priority == DetectCrisisLevel(message)
              && (r.emergencyResources.Some? <==> r.priority == High)
              && (r.emergencyResources.Some? ==> r.emergencyResources.value == EmergencyResources)
  {
    match completion
    case ApiError(status) =>
      Failure("OpenAI API error: " + DecimalString(status), TechnicalDifficulties)
    case Completed(content) =>
      var priority := DetectCrisisLevel(message);
      Answer(content, priority, if priority == High then Some(EmergencyResources) else None)
  }

  /** The request handler. `apiKey` is the configured service key and
      `completion` what the service answers to the message list `sent`
      (`None` when nothing was sent). */
  method Handle(body: RequestBody, apiKey: Option<string>, completion: Completion)
    returns (sent: Option<seq<ChatEntry>>, reply: Reply)
    ensures !Given(body.message) ==>
              sent == None && reply == Failure("Message is required", TechnicalDifficulties)
    ensures Given(body.message) && !Given(apiKey) ==>
              sent == None && reply == Failure("OpenAI API key not configured", TechnicalDifficulties)
    ensures Given(body.message) && Given(apiKey) ==>
              sent == Some(OutgoingMessages(SystemPrompt(body.language, body.screeningSummary),
                                            body.history, body.message.value))
    ensures Given(body.message) && Given(apiKey) ==>
              reply == ServiceReply(body.message.value, completion)
    ensures reply.Answer? ==> Given(body.message) && Given(apiKey) && completion.Completed?
  {
    if !Given(body.message) {
      return None, Failure("Message is required", TechnicalDifficulties);
    }
    var message := body.message.value;
    if !Given(apiKey) {
      return None, Failure("OpenAI API key not configured", TechnicalDifficulties);
    }

    var systemPrompt := SystemPrompt(body.language, body.screeningSummary);
    sent := Some(OutgoingMessages(systemPrompt, body.history, message));
    reply := ServiceReply(message, completion);
  }
}

=== FILE: common.dfy ===
/** Small shared vocabulary of the three pages: an optional value, the
    "last n elements" slice and the badge variants of the UI kit. */
module Common {

  /** A value that may be absent (an `undefined` field or argument). */
  datatype Option<+T> = None | Some(value: T)

  /** The badge variants the pages hand to the UI kit. */
  datatype BadgeVariant = Secondary | Warning | Destructive

  /** `xs.slice(-n)`: the last `n` elements of `xs`, or all of `xs` when it
      is shorter, kept in their original order. (JavaScript reads `slice(-0)`
      as `slice(0)`, the whole array, so only positive `n` mean "last n".) */
  function TakeLast<T>(xs: seq<T>, n: nat): (r: seq<T>)
    requires n > 0
    ensures |r| == if |xs| <= n then |xs| else n
  {
    if |xs| <= n then xs else xs[|xs| - n..]
  }

  /** What `TakeLast` keeps is a suffix of `xs`: the dropped prefix followed
      by it gives back `xs`. */
  lemma TakeLastIsSuffix<T>(xs: seq<T>, n: nat)
    requires n > 0
    ensures var r := TakeLast(xs, n); xs == xs[..|xs| - |r|] + r
  {
  }
}

=== FILE: screening.dfy ===
/** The PHQ-9 screening page: the nine-question questionnaire, the cursor
    that walks over it, the answer map, the total score and its
    interpretation into one of four severity bands, plus the self-harm
    safety notice shown for scores of 10 and above. */
module Screening {
  import Common

  /** The nine PHQ-9 items, in the order they are asked. */
  const Phq9Questions: seq<string> := [
    "Little interest or pleasure in doing things",
    "Feeling down, depressed, or hopeless",
    "Trouble falling or staying asleep, or sleeping too much",
    "Feeling tired or having little energy",
    "Poor appetite or overeating",
    "Feeling bad about yourself or that you are a failure or have let yourself or your family down",
    "Trouble concentrating on things, such as reading the newspaper or watching television",
    "Moving or speaking so slowly that other people could have noticed, or the opposite - being so fidgety or restless that you have been moving around a lot more than usual",
    "Thoughts that you would be better off dead, or of hurting yourself"
  ]

  /** `phq9Questions.length`, named so that the scoring logic does not
      drag the question texts along. */
  const QuestionCount: nat := 9

  /** `QuestionCount` is the length of the questionnaire. */
  lemma QuestionCountIsLength()
    ensures |Phq9Questions| == QuestionCount
  {
  }

  /** One radio button: the string value it reports and its caption. */
  datatype AnswerOption = AnswerOption(value: string, caption: string)

  /** The fixed four-point frequency scale offered for every question. */
  const AnswerOptions: seq<AnswerOption> := [
    AnswerOption("0", "Not at all"),
    AnswerOption("1", "Several days"),
    AnswerOption("2", "More than half the days"),
    AnswerOption("3", "Nearly every day")
  ]

  /** The largest total the page can display ("Score: n/27"). */
  const MaxScore: int := 27

  /** Whether `v` is the value of one of the answer options, the only
      strings the radio group ever hands to the answer handler. */
  predicate IsOptionValue(v: string) {
    exists i :: 0 <= i < |AnswerOptions| && AnswerOptions[i].value == v
  }

  /** `parseInt` on an option value: the option's position on the scale. */
  function ParseAnswer(v: string): (n: nat)
    requires IsOptionValue(v)
    ensures n < |AnswerOptions| && AnswerOptions[n].value == v
  {
    if v == "0" then 0 else if v == "1" then 1 else if v == "2" then 2 else 3
  }

  /** Every stored answer belongs to a real question and is an option value. */
  ghost predicate ValidAnswers(answers: map<int, string>) {
    forall q :: q in answers ==> 0 <= q < QuestionCount && IsOptionValue(answers[q])
  }

  /** Every question has an answer. */
  ghost predicate AllAnswered(answers: map<int, string>) {
    forall q :: 0 <= q < QuestionCount ==> q in answers
  }

  /** The sum of the stored answers to questions `0 .. n-1`; a question with
      no stored answer contributes nothing. */
  ghost function AnswerSum(answers: map<int, string>, n: nat): int
    requires ValidAnswers(answers)
  {
    if n == 0 then 0
    else AnswerSum(answers, n - 1) + (if n - 1 in answers then ParseAnswer(answers[n - 1]) else 0)
  }

  /** Each question adds between 0 and 3, so `n` questions add at most `3 * n`. */
  lemma {:induction false} AnswerSumBounds(answers: map<int, string>, n: nat)
    requires ValidAnswers(answers)
    ensures 0 <= AnswerSum(answers, n) <= 3 * n
  {
    if n > 0 {
      AnswerSumBounds(answers, n - 1);
    }
  }

  /** `completeScreening`'s fold: the total of all stored answer values. The
      stored keys all lie in `0 .. 8`, so visiting those indices in order
      visits exactly what `Object.values(answers)` yields. */
  method TotalScore(answers: map<int, string>) returns (total: int)
    requires ValidAnswers(answers)
    ensures total == AnswerSum(answers, QuestionCount)
    ensures 0 <= total <= MaxScore
  {
    total := 0;
    var q := 0;
    while q < QuestionCount
      invariant 0 <= q <= QuestionCount
      invariant total == AnswerSum(answers, q)
    {
      if q in answers {
        total := total + ParseAnswer(answers[q]);
      }
      q := q + 1;
    }
    AnswerSumBounds(answers, QuestionCount);
  }

  /** The colour tag of a band: low, medium or high concern. */
  datatype Tone = Success | Warning | Destructive

  /** The icon shown above the result. */
  datatype Icon = CheckCircle | Info | AlertTriangle

  /** What `getScoreInterpretation` returns for a score. */
  datatype Interpretation = Interpretation(
    level: string,
    color: Tone,
    icon: Icon,
    description: string,
    recommendations: seq<string>)

  /** The level of concern a colour tag stands for. */
  function Concern(t: Tone): nat {
    match t
    case Success => 0
    case Warning => 1
    case Destructive => 2
  }

  /** The four interpretations, one per band. */
  const MinimalInterpretation: Interpretation := Interpretation(
    "Minimal Depression", Success, CheckCircle,
    "Your responses suggest minimal symptoms of depression. Continue maintaining good mental health practices.",
    ["Keep up healthy lifestyle habits",
     "Continue stress management techniques",
     "Stay connected with supportive relationships"])

  const MildInterpretation: Interpretation := Interpretation(
    "Mild Depression", Warning, Info,
    "Your responses suggest mild symptoms of depression. Consider reaching out for support.",
    ["Consider talking to a counselor",
     "Increase physical activity and social connections",
     "Practice stress reduction techniques"])

  const ModerateInterpretation: Interpretation := Interpretation(
    "Moderate Depression", Destructive, AlertTriangle,
    "Your responses suggest moderate symptoms of depression. Professional support is recommended.",
    ["Schedule an appointment with a mental health professional",
     "Consider therapy or counseling",
     "Reach out to trusted friends or family"])

  const SevereInterpretation: Interpretation := Interpretation(
    "Severe Depression", Destructive, AlertTriangle,
    "Your responses suggest severe symptoms of depression. Please seek professional help immediately.",
    ["Contact a mental health professional urgently",
     "Consider immediate counseling or therapy",
     "Reach out to crisis support if needed"])

  /** Maps a score onto the four PHQ-9 bands 0-4, 5-9, 10-14 and 15 and above. */
  function GetScoreInterpretation(score: int): (r: Interpretation)
    ensures (r.color == Success) == (score <= 4)
    ensures (r.color == Destructive) == (score >= 10)
    ensures |r.recommendations| == 3
  {
    if score <= 4 then MinimalInterpretation
    else if score <= 9 then MildInterpretation
    else if score <= 14 then ModerateInterpretation
    else SevereInterpretation
  }

  /** A severity band as a closed score range with its label and colour. */
  datatype Band = Band(low: int, high: int, level: string, color: Tone)

  /** The published PHQ-9 cut-offs, written as a table of ranges. */
  const Phq9Bands: seq<Band> := [
    Band(0, 4, "Minimal Depression", Success),
    Band(5, 9, "Mild Depression", Warning),
    Band(10, 14, "Moderate Depression", Destructive),
    Band(15, MaxScore, "Severe Depression", Destructive)
  ]

  predicate InBand(b: Band, score: int) {
    b.low <= score <= b.high
  }

  /** The bands tile `0 .. 27`: every displayable score lies in exactly one
      band, and no score outside that range lies in any. */
  lemma BandsPartitionScores(score: int)
    ensures (0 <= score <= MaxScore) <==>
            (exists i :: 0 <= i < |Phq9Bands| && InBand(Phq9Bands[i], score))
    ensures forall i, j :: 0 <= i < j < |Phq9Bands| ==>
              !(InBand(Phq9Bands[i], score) && InBand(Phq9Bands[j], score))
  {
    if 0 <= score <= MaxScore {
      var i := if score <= 4 then 0 else if score <= 9 then 1 else if score <= 14 then 2 else 3;
      assert InBand(Phq9Bands[i], score);
    }
  }

  /** `getScoreInterpretation` picks the label and colour of the band that
      contains the score. */
  lemma InterpretationMatchesBand(score: int, i: int)
    requires 0 <= i < |Phq9Bands| && InBand(Phq9Bands[i], score)
    ensures GetScoreInterpretation(score).level == Phq9Bands[i].level
    ensures GetScoreInterpretation(score).color == Phq9Bands[i].color
  {
  }

  /** A higher score never gets a band of lower concern. */
  lemma ConcernMonotone(s1: int, s2: int)
    requires s1 <= s2
    ensures Concern(GetScoreInterpretation(s1).color) <= Concern(GetScoreInterpretation(s2).color)
  {
  }

  /** The self-harm notice under the result. */
  predicate ShowsSafetyNotice(score: int) {
    score >= 10
  }

  /** The notice appears exactly for the two bands tagged destructive, and
      for a displayable score exactly when it lies in the moderate or the
      severe band of the published table. */
  lemma SafetyNoticeIffDestructive(score: int)
    ensures ShowsSafetyNotice(score) <==> GetScoreInterpretation(score).color == Destructive
    ensures 0 <= score <= MaxScore ==>
              (ShowsSafetyNotice(score) <==>
               exists i :: 2 <= i < |Phq9Bands| && InBand(Phq9Bands[i], score))
  {
    if 0 <= score <= MaxScore && ShowsSafetyNotice(score) {
      assert InBand(Phq9Bands[if score <= 14 then 2 else 3], score);
    }
  }

  /** The notice looks only at the total: the self-harm item (question 9)
      answered "Nearly every day" with every other item at "Not at all"
      totals 3, a minimal result, and shows no notice. */
  lemma SelfHarmItemAloneShowsNoNotice(answers: map<int, string>)
    requires forall q :: q in answers <==> 0 <= q < QuestionCount
    requires forall q :: 0 <= q < QuestionCount ==> answers[q] == if q == 8 then "3" else "0"
    ensures ValidAnswers(answers) && AllAnswered(answers)
    ensures ParseAnswer(answers[8]) == 3
    ensures AnswerSum(answers, QuestionCount) == 3
    ensures GetScoreInterpretation(3) == MinimalInterpretation && !ShowsSafetyNotice(3)
  {
    assert IsOptionValue("0") by { assert AnswerOptions[0].value == "0"; }
    assert IsOptionValue("3") by { assert AnswerOptions[3].value == "3"; }
    assert AnswerSum(answers, 8) == 0 by { AnswerSumUniform(answers, 8, "0"); }
  }

  /** When the first `n` answers all hold the same option value, they sum to
      `n` times that value. */
  lemma {:induction false} AnswerSumUniform(answers: map<int, string>, n: nat, v: string)
    requires ValidAnswers(answers) && IsOptionValue(v)
    requires forall q :: 0 <= q < n ==> q in answers && answers[q] == v
    ensures AnswerSum(answers, n) == n * ParseAnswer(v)
  {
    if n > 0 {
      AnswerSumUniform(answers, n - 1, v);
      assert n * ParseAnswer(v) == (n - 1) * ParseAnswer(v) + ParseAnswer(v);
    }
  }

  /** The result badge: secondary for the success band, destructive for every
      other band, including the warning-tagged mild band. */
  function ResultBadge(color: Tone): (v: Common.BadgeVariant)
    ensures (v == Common.Secondary) == (color == Success)
    ensures v != Common.Warning
  {
    if color == Success then Common.Secondary else Common.Destructive
  }

  /** The page's state cells: the cursor, the answer map, the completion
      flag and the total. */
  class ScreeningPage {
    var currentQuestion: int
    var answers: map<int, string>
    var isCompleted: bool
    var score: int

    /** The cursor stays on a question, every question before it has been
        answered, and a completed page holds the sum of a full answer set. */
    ghost predicate Valid()
      reads this
    {
      && 0 <= currentQuestion < QuestionCount
      && ValidAnswers(answers)
      && (forall q :: 0 <= q < currentQuestion ==> q in answers)
      && (isCompleted ==> AllAnswered(answers) && score == AnswerSum(answers, QuestionCount))
      && 0 <= score <= MaxScore
    }

    constructor ()
      ensures Valid()
      ensures currentQuestion == 0 && answers == map[] && !isCompleted && score == 0
    {
      currentQuestion := 0;
      answers := map[];
      isCompleted := false;
      score := 0;
    }

    /** The Next/Complete button is enabled once the current question has an
        answer (every option value, "0" included, is a non-empty string). */
    predicate NextEnabled()
      reads this
    {
      currentQuestion in answers
    }

    /** The Previous button is disabled on the first question. */
    predicate PreviousEnabled()
      reads this
    {
      currentQuestion != 0
    }

    /** `handleAnswerChange`: records the chosen value for the current
        question and touches nothing else. */
    method HandleAnswerChange(value: string)
      requires Valid() && !isCompleted && IsOptionValue(value)
      modifies this
      ensures Valid()
      ensures answers == old(answers)[old(currentQuestion) := value]
      ensures currentQuestion == old(currentQuestion)
      ensures isCompleted == old(isCompleted) && score == old(score)
    {
      answers := answers[currentQuestion := value];
    }

    /** `goToNext`, reachable only through the enabled Next button: moves
        on while a later question exists, otherwise completes. */
    method GoToNext()
      requires Valid() && !isCompleted && NextEnabled()
      modifies this
      ensures Valid()
      ensures answers == old(answers)
      ensures old(currentQuestion) < QuestionCount - 1 ==>
                currentQuestion == old(currentQuestion) + 1 && !isCompleted && score == old(score)
      ensures old(currentQuestion) == QuestionCount - 1 ==>
                currentQuestion == old(currentQuestion) && isCompleted
                && AllAnswered(answers) && score == AnswerSum(answers, QuestionCount)
    {
      if currentQuestion < QuestionCount - 1 {
        currentQuestion := currentQuestion + 1;
      } else {
        CompleteScreening();
      }
    }

    /** `goToPrevious`: steps back unless already on the first question. */
    method GoToPrevious()
      requires Valid() && !isCompleted
      modifies this
      ensures Valid()
      ensures currentQuestion == if old(PreviousEnabled()) then old(currentQuestion) - 1 else old(currentQuestion)
      ensures answers == old(answers) && isCompleted == old(isCompleted) && score == old(score)
    {
      if currentQuestion > 0 {
        currentQuestion := currentQuestion - 1;
      }
    }

    /** `completeScreening`, called from `goToNext` on the last question once
        it is answered: stores the total and marks the page completed. */
    method CompleteScreening()
      requires Valid() && currentQuestion == QuestionCount - 1 && NextEnabled()
      modifies this
      ensures Valid()
      ensures isCompleted && AllAnswered(answers)
      ensures score == AnswerSum(answers, QuestionCount)
      ensures answers == old(answers) && currentQuestion == old(currentQuestion)
    {
      var total := TotalScore(answers);
      score := total;
      isCompleted := true;
    }

    /** The interpretation shown once the page is completed. */
    function Result(): (r: Common.Option<Interpretation>)
      reads this
      ensures r.Some? <==> isCompleted
      ensures r.Some? ==> r.value == GetScoreInterpretation(score)
    {
      if isCompleted then Common.Some(GetScoreInterpretation(score)) else Common.None
    }

    /** Whether the completed page shows the self-harm notice. */
    predicate NoticeShown()
      reads this
    {
      isCompleted && ShowsSafetyNotice(score)
    }
  }

  /** The sum of a sequence of option values. */
  ghost function ResponseSum(responses: seq<string>): int
    requires forall k :: 0 <= k < |responses| ==> IsOptionValue(responses[k])
  {
    if responses == [] then 0
    else ResponseSum(responses[..|responses| - 1]) + ParseAnswer(responses[|responses| - 1])
  }

  /** The answer map holds exactly the first `k` responses, under their
      question indices. */
  ghost predicate RecordsPrefix(answers: map<int, string>, responses: seq<string>, k: nat)
    requires k <= |responses|
  {
    && (forall q :: q in answers <==> 0 <= q < k)
    && (forall q :: 0 <= q < k ==> answers[q] == responses[q])
  }

  /** Recording response `k` on top of the first `k` extends the recorded
      prefix by one and adds that response to the sum. */
  lemma RecordNext(before: map<int, string>, responses: seq<string>, k: nat)
    requires k < |responses| && IsOptionValue(responses[k])
    requires ValidAnswers(before) && ValidAnswers(before[k := responses[k]])
    requires RecordsPrefix(before, responses, k)
    ensures RecordsPrefix(before[k := responses[k]], responses, k + 1)
    ensures AnswerSum(before[k := responses[k]], k + 1) == AnswerSum(before, k) + ParseAnswer(responses[k])
    ensures ResponseSum(responses[..k + 1]) == ResponseSum(responses[..k]) + ParseAnswer(responses[k])
  {
    AnswerSumIgnoresLaterKeys(before[k := responses[k]], before, k);
    assert responses[..k + 1][..k] == responses[..k];
  }

  /** A user who answers the questions in order, pressing Next after each,
      completes the page with the sum of the answers as score, and sees the
      notice exactly when that sum is at least 10. */
  method TakeScreening(responses: seq<string>) returns (score: int, notice: bool)
    requires |responses| == QuestionCount
    requires forall k :: 0 <= k < |responses| ==> IsOptionValue(responses[k])
    ensures score == ResponseSum(responses)
    ensures 0 <= score <= MaxScore
    ensures notice <==> score >= 10
  {
    var page := new ScreeningPage();
    var k := 0;
    while k < |responses|
      invariant 0 <= k <= |responses|
      invariant page.Valid()
      invariant k < |responses| ==> !page.isCompleted && page.currentQuestion == k
      invariant k == |responses| ==> page.isCompleted
      invariant RecordsPrefix(page.answers, responses, k)
      invariant AnswerSum(page.answers, k) == ResponseSum(responses[..k])
      modifies page
    {
      RecordNext(page.answers, responses, k);
      page.HandleAnswerChange(responses[k]);
      page.GoToNext();
      k := k + 1;
    }
    assert responses[..k] == responses;
    score := page.score;
    notice := page.NoticeShown();
  }

  /** Answers at or beyond position `n` do not affect the sum of the first `n`. */
  lemma {:induction false} AnswerSumIgnoresLaterKeys(a: map<int, string>, b: map<int, string>, n: nat)
    requires ValidAnswers(a) && ValidAnswers(b)
    requires forall q :: 0 <= q < n ==> (q in a <==> q in b) && (q in a ==> a[q] == b[q])
    ensures AnswerSum(a, n) == AnswerSum(b, n)
  {
    if n > 0 {
      AnswerSumIgnoresLaterKeys(a, b, n - 1);
    }
  }

  /** Responses that all hold the same option value sum to their count
      times that value. */
  lemma {:induction false} UniformResponseSum(responses: seq<string>, v: string)
    requires IsOptionValue(v)
    requires forall k :: 0 <= k < |responses| ==> responses[k] == v
    ensures ResponseSum(responses) == |responses| * ParseAnswer(v)
  {
    if responses != [] {
      UniformResponseSum(responses[..|responses| - 1], v);
      assert |responses| * ParseAnswer(v) == (|responses| - 1) * ParseAnswer(v) + ParseAnswer(v);
    }
  }

  /** Nine "Nearly every day" answers total 27: the severe band, with the
      notice. */
  lemma AllNearlyEveryDayIsSevere(responses: seq<string>)
    requires |responses| == QuestionCount
    requires forall k :: 0 <= k < |responses| ==> responses[k] == "3"
    ensures forall k :: 0 <= k < |responses| ==> IsOptionValue(responses[k])
    ensures ResponseSum(responses) == MaxScore
    ensures GetScoreInterpretation(MaxScore) == SevereInterpretation
    ensures ShowsSafetyNotice(MaxScore)
  {
    assert IsOptionValue("3") by { assert AnswerOptions[3].value == "3"; }
    UniformResponseSum(responses, "3");
  }

  /** Nine "Not at all" answers total 0: the minimal band, without the
      notice. */
  lemma AllNotAtAllIsMinimal(responses: seq<string>)
    requires |responses| == QuestionCount
    requires forall k :: 0 <= k < |responses| ==> responses[k] == "0"
    ensures forall k :: 0 <= k < |responses| ==> IsOptionValue(responses[k])
    ensures ResponseSum(responses) == 0
    ensures GetScoreInterpretation(0) == MinimalInterpretation
    ensures !ShowsSafetyNotice(0)
  {
    assert IsOptionValue("0") by { assert AnswerOptions[0].value == "0"; }
    UniformResponseSum(responses, "0");
  }
}
